=== FILE: README.md ===
# A2A payment agents: executor lifecycle, part conversion and Carfax VIN handling

This project is a Dafny model of two pieces of the `a2a_friend_scheduling` agents.

- **The PayStabl executor** (`karley_agent_adk/agent_executor.py`) runs an ADK agent as an A2A task.
  - `execute` checks the request context, publishes `submit` (only for a new task) and `start_work`, and converts the incoming message.
  - `_process_request` gets or creates the session, runs the agent and walks its event stream.
    - An event that is not final and has no function calls publishes a `working` status message.
    - The first final event publishes one artifact, then `complete`, and the walk stops there.
  - `cancel` always refuses.
  - Three converters map between A2A parts (`TextPart`, `FilePart` with `FileWithUri` or `FileWithBytes`, `DataPart`) and GenAI parts.
- **The Carfax agent** (`nate_agent_crewai/agent.py`):
  - `invoke` pulls a VIN out of the query.
  - `CarfaxTool.run` refuses a malformed VIN before building a request, then classifies the HTTP outcome. Only status 200 is a report; 402 is an ordinary failure.
  - The `_run` of the earlier, shadowed `CarfaxTool` class is modelled too.

How the model is built:

- The ADK runner is a sequence of `Event(isFinal, hasFunctionCalls, parts)` values.
- The `TaskUpdater` is the sequence of `Update`s it is asked to publish.
- The session service is a `map` from (application, user, session id) to `Session`.
- An HTTP exchange is an input `FetchOutcome`: a status and body, a timeout, or another request failure.
- A raised exception is the `error` field of the result.
- `str.encode("utf-8")` and `bytes.decode("utf-8")` are modelled exactly, as a strict codec.
  - An inline GenAI blob that is not valid UTF-8 therefore makes the GenAI-to-A2A conversion raise, as it does in Python.
- The code UTF-8-encodes the `bytes` string of a `FileWithBytes` part; it does not base64-decode it. The model does the same.

Files: `wrappers.dfy` (Option, Result), `utf8.dfy`, `parts.dfy`, `sessions.dfy`, `executor.dfy`, `text.dfy` (Python `str.split()` and `str(int)`), `vin.dfy`, `carfax.dfy`.

## Model

| member | source | states |
|---|---|---|
| Utf8.DecodeEncode | a2a_friend_scheduling/karley_agent_adk/agent_executor.py:88-92 | decoding the UTF-8 encoding of any text gives that text back |
| Utf8.EncodeDecode | a2a_friend_scheduling/karley_agent_adk/agent_executor.py:102-104 | whatever the decoder accepts re-encodes to the same bytes, so decoding accepts exactly what encoding produces |
| Parts.A2aToGenai | a2a_friend_scheduling/karley_agent_adk/agent_executor.py:81-93 | a `DataPart` raises the unsupported-part error and nothing else does; text becomes GenAI text only; a URI file becomes file data with that URI and media type; file bytes become an inline blob that decodes back to the text, keeping a non-empty media type and using `application/octet-stream` otherwise |
| Parts.A2aToGenaiAll | a2a_friend_scheduling/karley_agent_adk/agent_executor.py:78-79 | succeeds exactly when no part is a `DataPart`, and then converts part `i` to element `i`, keeping length and order |
| Parts.GenaiToA2a | a2a_friend_scheduling/karley_agent_adk/agent_executor.py:97-104 | non-empty text wins, then a non-empty file URI, then non-empty inline bytes; a URI part becomes a file by URI with the same URI and media type; an inline part becomes a file by bytes holding the decoded text and the same media type; a part is dropped exactly when it has none of the three; it raises exactly when its only payload is undecodable inline bytes |
| Parts.GenaiToA2aAll | a2a_friend_scheduling/karley_agent_adk/agent_executor.py:95-105 | succeeds exactly when every part converts, and otherwise raises the decoding error; on success it holds one part per content-carrying input part, so it is never longer than the input, and no `DataPart` |
| Parts.GenaiToA2aAllAppend | a2a_friend_scheduling/karley_agent_adk/agent_executor.py:96-105 | converting a concatenation concatenates the conversions, so output order is input order; the first error wins |
| Parts.GenaiToA2aAllSingle | a2a_friend_scheduling/karley_agent_adk/agent_executor.py:97-104 | a one-part list converts to the list holding that part's conversion, or to the empty list when the part is skipped; with the append lemma this fixes the output of every list |
| Parts.GenaiToA2aBack | a2a_friend_scheduling/karley_agent_adk/agent_executor.py:81-104 | converting a kept GenAI part back to GenAI reproduces the payload that won: its text, else its file data, else its inline bytes with any non-empty media type |
| Parts.TextOnlyConversion | a2a_friend_scheduling/karley_agent_adk/agent_executor.py:98-99 | when every part has text, every part is kept as a text part with that text, whatever file fields it also has |
| Parts.RoundTripPart | a2a_friend_scheduling/karley_agent_adk/agent_executor.py:81-104 | one non-empty text part, file part with a non-empty URI, or byte file with non-empty bytes and a non-empty media type survives A2A to GenAI and back unchanged |
| Parts.RoundTripAll | a2a_friend_scheduling/karley_agent_adk/agent_executor.py:78-105 | A2A to GenAI and back is the identity on every list of such parts |
| Parts.MissingMimeTypeBecomesOctetStream | a2a_friend_scheduling/karley_agent_adk/agent_executor.py:91 | a byte file with non-empty bytes and no media type comes back labelled `application/octet-stream`, so it does not round-trip |
| Parts.EmptyPayloadDropped | a2a_friend_scheduling/karley_agent_adk/agent_executor.py:98-105 | empty text, an empty URI or empty bytes is dropped on the way back |
| Sessions.Upsert | a2a_friend_scheduling/karley_agent_adk/agent_executor.py:65-75 | an existing session is returned and the store is unchanged; otherwise exactly the requested key is added, holding a session with that key; no other entry changes |
| Sessions.UpsertWellKeyed | a2a_friend_scheduling/karley_agent_adk/agent_executor.py:65-75 | a store whose sessions sit under their own keys stays that way, so there is at most one session per id, and the returned session has the requested id |
| Sessions.UpsertIdempotent | a2a_friend_scheduling/karley_agent_adk/agent_executor.py:66-72 | a second upsert of the same id returns the same session and leaves the store as the first left it |
| Executor.StreamTrace | a2a_friend_scheduling/karley_agent_adk/agent_executor.py:31-43 | the stream walk publishes working messages, then at most one artifact immediately followed by a single last `complete`; without a final event it publishes only working messages |
| Executor.ProcessEvents | a2a_friend_scheduling/karley_agent_adk/agent_executor.py:31-43 | the loop with its `break` publishes exactly what the recursive stream definition `StreamTrace` publishes, and fails the same way |
| Executor.Execute | a2a_friend_scheduling/karley_agent_adk/agent_executor.py:45-60 | a missing task or context id, or a missing message, raises before any update, runner call or session change; a message that does not convert publishes only the opening and raises the conversion error; otherwise the runner is called with the converted message, the opening is followed by the stream walk's updates, the walk's error is the call's error, and the store afterwards is the get-or-create's result; announced states never go back |
| Executor.Cancel | a2a_friend_scheduling/karley_agent_adk/agent_executor.py:62-63 | cancellation always raises the unsupported-operation error and publishes nothing, calls nothing, changes no session |
| Executor.StopsAtFinal | a2a_friend_scheduling/karley_agent_adk/agent_executor.py:32-36 | once a prefix of the stream holds a final event, no later event changes what is published |
| Executor.StreamAppend | a2a_friend_scheduling/karley_agent_adk/agent_executor.py:31-43 | a clean prefix without a final event publishes its updates before anything later events cause, so status updates keep stream order |
| Executor.StopsAtError | a2a_friend_scheduling/karley_agent_adk/agent_executor.py:37-43 | once a prefix of the stream raises a conversion error, no later event publishes anything and that error is the one reported |
| Executor.SingleEvent | a2a_friend_scheduling/karley_agent_adk/agent_executor.py:32-43 | a final event publishes its parts as an artifact and then completes; a non-final event without function calls publishes one working message with its converted parts; one with function calls publishes nothing |
| Executor.FirstFinalCompletes | a2a_friend_scheduling/karley_agent_adk/agent_executor.py:31-36 | the first final event, after a clean prefix, adds exactly one artifact holding its parts and then `complete`, which is the last update |
| Executor.CompleteNeedsFinal | a2a_friend_scheduling/karley_agent_adk/agent_executor.py:32-36 | a walk that ends in `complete` saw a final event and raised nothing |
| Executor.ExecuteRuns | a2a_friend_scheduling/karley_agent_adk/agent_executor.py:28-31 | an admissible run publishes the opening followed by the stream walk's updates; the runner runs as the agent user on the session of the context id, and the store afterwards is exactly the get-or-create's result for that session, so it holds that session, every other session is unchanged, and it stays well keyed |
| Executor.SubmitOnlyForNewTask | a2a_friend_scheduling/karley_agent_adk/agent_executor.py:51-54 | `submit` is published exactly when there is no current task, and only first; `start_work` is published once, before every stream-driven update |
| Executor.NoFinalLeavesWorking | a2a_friend_scheduling/karley_agent_adk/agent_executor.py:31-43 | a stream with no final event publishes no artifact and no `complete` |
| Text.Words | a2a_friend_scheduling/nate_agent_crewai/agent.py:149 | `str.split()` yields only non-empty words free of Python whitespace, which together hold every non-whitespace character of the query in order |
| Text.WordsAtSpace | a2a_friend_scheduling/nate_agent_crewai/agent.py:149 | `str.split()` breaks at every whitespace character: one whitespace character splits the text into the words before it followed by the words after it |
| Text.WordsOfWord | a2a_friend_scheduling/nate_agent_crewai/agent.py:149 | a non-empty run without whitespace splits into exactly itself |
| Text.WordsJoinSpaces | a2a_friend_scheduling/nate_agent_crewai/agent.py:149 | splitting words joined by single spaces gives the words back |
| Text.ParseIntToString | a2a_friend_scheduling/nate_agent_crewai/agent.py:111 | the decimal rendering of a status code reads back as that code |
| Text.IntToStringInjective | a2a_friend_scheduling/nate_agent_crewai/agent.py:111 | distinct status codes render differently |
| Vin.FirstVin | a2a_friend_scheduling/nate_agent_crewai/agent.py:150-154 | the result is empty exactly when no word is 17 alphanumeric characters; otherwise it is a 17-character upper-case alphanumeric string, the upper-cased form of the first such word, with no earlier word qualifying |
| Vin.ExtractVin | a2a_friend_scheduling/nate_agent_crewai/agent.py:147-154 | the extracted VIN is `""` or 17 upper-case letters and digits, and `""` exactly when no word of the query qualifies |
| Vin.ExtractVinIdempotent | a2a_friend_scheduling/nate_agent_crewai/agent.py:147-154 | extracting from an extracted VIN gives it back |
| Vin.ExtractFromWords | a2a_friend_scheduling/nate_agent_crewai/agent.py:149-154 | for a query of words joined by spaces, extraction returns the first qualifying word, upper-cased |
| Vin.FirstVinAppend | a2a_friend_scheduling/nate_agent_crewai/agent.py:150-154 | the first candidate of two word lists in sequence is the first list's candidate if it has one, else the second list's |
| Vin.ExtractVinAtSpace | a2a_friend_scheduling/nate_agent_crewai/agent.py:147-154 | around any whitespace character of a query, the VIN comes from the text before it when that text holds one, and otherwise from the text after it |
| Carfax.Run | a2a_friend_scheduling/nate_agent_crewai/agent.py:87-117 | a VIN that is not 17 characters long gets the invalid-format error and no request; otherwise the request to the endpoint followed by the VIN is built; the result is a report exactly for status 200, carrying the body; any other status, 402 included, is the status error |
| Carfax.StatusErrorMentions | a2a_friend_scheduling/nate_agent_crewai/agent.py:110-112 | the status error names the VIN and the status code |
| Carfax.StatusErrorDeterminesStatus | a2a_friend_scheduling/nate_agent_crewai/agent.py:110-112 | two different status codes never give the same error for a VIN |
| Carfax.LegacyRun | a2a_friend_scheduling/nate_agent_crewai/agent.py:55-76 | the earlier `_run` refuses a VIN not 17 long; on status 200 it returns the report prefix naming the VIN followed by the unchanged body |
| Carfax.LegacyReportIffOk | a2a_friend_scheduling/nate_agent_crewai/agent.py:59-74 | the earlier `_run`'s output starts with the report prefix exactly when a well-formed VIN was fetched with status 200 |
| Carfax.Invoke | a2a_friend_scheduling/nate_agent_crewai/agent.py:133-145 | without an extracted VIN the tool is never called and the no-VIN error is returned; otherwise the tool is called with that VIN and its result is returned unchanged |
| Carfax.InvokeNeverInvalidFormat | a2a_friend_scheduling/nate_agent_crewai/agent.py:136-145 | every VIN `invoke` passes on has the length the tool checks, so a request is always built and the invalid-format error never reaches the caller |

## Left out

- Network I/O: `requests.get`, its timeout, and the runner's asynchronous event generation are inputs (`FetchOutcome`, the event sequence), not behaviour of the model.
- Carfax.Run: the JSON steps (`response.json()`, `json.dumps`, the `JSONDecodeError` branch and the final catch-all `Exception` branch) are abstracted into `ToolResult`. The module never imports `json`, so the code as written would raise `NameError` on every path. The model states the evidently intended results instead.
- Carfax.Invoke: the no-VIN branch also builds its error with `json.dumps`, so as written it would raise `NameError` because `json` is never imported. The model returns the intended `ToolError(NoVinMessage)` instead.
- Vin.ExtractVin: Python's `isalnum` and `upper` are Unicode-aware. The model takes only ASCII letters and digits as alphanumeric and upper-cases only `a`-`z`. In Python a non-ASCII word can pass the test, and `upper` can lengthen it (`ß` becomes `SS`). Such a word then reaches the tool with 18 characters and gets the invalid-format error, so Carfax.InvokeNeverInvalidFormat holds only for this ASCII model.
- Text.Words: Python whitespace is enumerated exactly, but Python strings that hold lone surrogates cannot be Dafny `char`s.
- Utf8.Encode: `str.encode("utf-8")` raises on a lone surrogate; Dafny `char`s cannot be surrogates, so that failure is not modelled.
- Executor.Execute: the message id and artifact id that `TaskUpdater` draws at random are not modelled. Neither are the role wrapper of `new_agent_message` or `UserContent`.
- Sessions.Upsert: the map-based store always creates the session, so the `RuntimeError` for a failed create (line 73-74) cannot happen in the model.
- Parts: the optional `name` and `metadata` fields of the A2A part and file types are not modelled; the converters drop them. A `DataPart` payload is opaque text.
- Executor.Execute: the `TaskUpdater` and event queue internals are not modelled. These include any refusal to publish after a terminal state; this executor never publishes after `complete` anyway (Executor.StreamTrace).
- `generate_calendar` and `MY_CALENDAR`: they depend on `random.sample` and `date.today()` and print.
- `AvailabilityTool` and its input schema: they sit inside a string literal and never run.
- `generate_carfax_report`: a stub with no body.
- Agent construction, prompts and MCP tool wiring; both entry points (environment loading, agent cards, server bootstrap); the stdio bridge. These are configuration and foreign calls.
- A pay-on-402 relay does not appear in this code. A 402 is an ordinary non-200 status here.

=== FILE: carfax.dfy ===
/** The Carfax agent: `CarfaxAgent.invoke`, the `CarfaxTool.run` it calls,
    and the `_run` of the earlier, shadowed `CarfaxTool`. The HTTP exchange is
    an input: the response status and body, or the transport failure. The
    JSON wrapping of results is abstracted into `ToolResult`. */
module Carfax {
  import opened Wrappers
  import opened Text
  import opened Vin

  /** What the GET to the Carfax endpoint produced. */
  datatype FetchOutcome =
    | Response(status: int, body: string)
    | TimedOut                     // `requests.exceptions.Timeout`
    | RequestFailed(detail: string) // any other `RequestException`, by its text

  datatype HttpRequest = HttpRequest(url: string, headers: seq<(string, string)>, timeoutSeconds: nat)

  /** A report body, or the message of an `{"error": ...}` object. */
  datatype ToolResult = Report(body: string) | ToolError(message: string)

  /** The request the tool built, if it got that far, and its result. */
  datatype ToolCall = ToolCall(request: Option<HttpRequest>, result: ToolResult)

  // `InvalidVinMessage`, `NoVinMessage` and the timeout message are each
  // written as two concatenated literals. The verifier does not look inside a
  // string literal this long, and the split lets the proofs read each
  // message's first character. Each value is still the one message the
  // source returns.
  const Endpoint: string := "https://proxy402.com/rZ0Or4VKA9?vin="
  const TimeoutSeconds: nat := 30
  const InvalidVinMessage: string := "Invalid VIN format. " + "VIN should be 17 characters long."
  const NoVinMessage: string := "No valid VIN found in the query. " + "Please provide a 17-character VIN number."

  /** The placeholder credentials the tool sends. */
  const Headers: seq<(string, string)> :=
    [("x402", "payment_response_from_paystabl_agent"), ("Authorization", "Bearer agent_wallet_token")]

  function ReportRequest(vin: string): (q: HttpRequest)
    ensures |q.url| == |Endpoint| + |vin|
    ensures q.url[..|Endpoint|] == Endpoint && q.url[|Endpoint|..] == vin
  {
    HttpRequest(Endpoint + vin, Headers, TimeoutSeconds)
  }

  function StatusErrorMessage(vin: string, status: int): string {
    "Failed to fetch Carfax report for VIN " + vin + ". Status code: " + IntToString(status)
  }

  function TransportErrorMessage(vin: string, f: FetchOutcome): string
    requires !f.Response?
  {
    match f
    case TimedOut => "Request timed out while fetching " + "Carfax report for VIN " + vin + "."
    case RequestFailed(detail) => "Error fetching Carfax report for VIN " + vin + ": " + detail
  }

  /** `CarfaxTool.run`: a VIN that is empty or not 17 characters long is
      refused before any request is built; otherwise the request goes out
      and only status 200 yields the report. A 402 is an ordinary failure. */
  function Run(vin: string, fetch: FetchOutcome): (r: ToolCall)
    ensures r.request.None? <==> |vin| != VinLength
    ensures r.request.None? ==> r.result == ToolError(InvalidVinMessage)
    ensures r.request.Some? ==> r.request.value == ReportRequest(vin)
    ensures r.result.Report? <==> |vin| == VinLength && fetch.Response? && fetch.status == 200
    ensures r.result.Report? ==> r.result.body == fetch.body
    ensures |vin| == VinLength && fetch.Response? && fetch.status != 200 ==>
      r.result == ToolError(StatusErrorMessage(vin, fetch.status))
  {
    if vin == "" || |vin| != VinLength then
      ToolCall(None, ToolError(InvalidVinMessage))
    else
      var request := ReportRequest(vin);
      match fetch
      case Response(status, body) =>
        if status == 200 then ToolCall(Some(request), Report(body))
        else ToolCall(Some(request), ToolError(StatusErrorMessage(vin, status)))
      case _ => ToolCall(Some(request), ToolError(TransportErrorMessage(vin, fetch)))
  }

  /** A non-200 status error names the VIN and the status code. */
  lemma StatusErrorMentions(vin: string, status: int)
    ensures Contains(StatusErrorMessage(vin, status), vin)
    ensures Contains(StatusErrorMessage(vin, status), IntToString(status))
  {
    var a := "Failed to fetch Carfax report for VIN ";
    var b := ". Status code: ";
    var s := IntToString(status);
    ContainsMiddle(a, vin, b + s);
    assert a + vin + (b + s) == StatusErrorMessage(vin, status);
    ContainsMiddle(a + vin + b, s, []);
    assert a + vin + b + s + [] == StatusErrorMessage(vin, status);
  }

  /** The status error determines the status: two different statuses never
      produce the same message for a VIN. */
  lemma StatusErrorDeterminesStatus(vin: string, s1: int, s2: int)
    requires StatusErrorMessage(vin, s1) == StatusErrorMessage(vin, s2)
    ensures s1 == s2
  {
    var p := "Failed to fetch Carfax report for VIN " + vin + ". Status code: ";
    assert StatusErrorMessage(vin, s1)[|p|..] == IntToString(s1);
    assert StatusErrorMessage(vin, s2)[|p|..] == IntToString(s2);
    IntToStringInjective(s1, s2);
  }

  // ---------------------------------------------------------------- earlier `_run`

  function LegacyPrefix(vin: string): string {
    "Carfax report for VIN " + vin + ":\n"
  }

  /** `_run` of the first `CarfaxTool` class, which returns plain text. */
  function LegacyRun(vin: string, fetch: FetchOutcome): (out: string)
    ensures |vin| != VinLength ==> out == InvalidVinMessage
    ensures |vin| == VinLength && fetch.Response? && fetch.status == 200 ==>
      |out| >= |LegacyPrefix(vin)| && out[..|LegacyPrefix(vin)|] == LegacyPrefix(vin)
      && out[|LegacyPrefix(vin)|..] == fetch.body
  {
    if vin == "" || |vin| != VinLength then InvalidVinMessage
    else match fetch
      case Response(status, body) =>
        if status == 200 then LegacyPrefix(vin) + body
        else StatusErrorMessage(vin, status)
      case _ => TransportErrorMessage(vin, fetch)
  }

  /** The output starts with the report prefix exactly when the fetch of a
      well-formed VIN returned 200: success cannot be mistaken for failure. */
  lemma LegacyReportIffOk(vin: string, fetch: FetchOutcome)
    ensures var out := LegacyRun(vin, fetch);
      (|out| >= |LegacyPrefix(vin)| && out[..|LegacyPrefix(vin)|] == LegacyPrefix(vin))
      <==> |vin| == VinLength && fetch.Response? && fetch.status == 200
  {
    var out := LegacyRun(vin, fetch);
    var p := LegacyPrefix(vin);
    if !(|vin| == VinLength && fetch.Response? && fetch.status == 200) {
      assert p[0] == 'C';
      assert out[0] != 'C' by {
        if |vin| != VinLength {
          assert out[0] == "Invalid VIN format. "[0] == 'I';
        } else if fetch.Response? {
          assert out[0] == "Failed to fetch Carfax report for VIN "[0] == 'F';
        } else if fetch.TimedOut? {
          assert out[0] == "Request timed out while fetching "[0] == 'R';
        } else {
          assert out[0] == "Error fetching Carfax report for VIN "[0] == 'E';
        }
      }
    }
  }

  // ---------------------------------------------------------------- invoke

  /** The tool call `invoke` made, if any, and what it returned. */
  datatype Invocation = Invocation(toolCall: Option<(string, ToolCall)>, result: ToolResult)

  /** `CarfaxAgent.invoke`: without an extracted VIN the tool is never
      called; otherwise the answer is exactly the tool's answer for it. */
  function Invoke(query: string, fetch: FetchOutcome): (r: Invocation)
    ensures ExtractVin(query) == "" <==> r.toolCall.None?
    ensures r.toolCall.None? ==> r.result == ToolError(NoVinMessage)
    ensures r.toolCall.Some? ==>
      && r.toolCall.value.0 == ExtractVin(query)
      && IsVin(r.toolCall.value.0)
      && r.result == r.toolCall.value.1.result
      && r.toolCall.value.1 == Run(ExtractVin(query), fetch)
  {
    var vin := ExtractVin(query);
    if vin == "" then Invocation(None, ToolError(NoVinMessage))
    else
      var call := Run(vin, fetch);
      Invocation(Some((vin, call)), call.result)
  }

  /** Every VIN `invoke` hands to the tool passes the tool's format check, so
      a request is always built and the invalid-format error never surfaces. */
  lemma InvokeNeverInvalidFormat(query: string, fetch: FetchOutcome)
    ensures Invoke(query, fetch).result != ToolError(InvalidVinMessage)
    ensures Invoke(query, fetch).toolCall.Some? ==> Invoke(query, fetch).toolCall.value.1.request.Some?
  {
    assert NoVinMessage != InvalidVinMessage by {
      assert NoVinMessage[0] == "No valid VIN found in the query. "[0] == 'N';
      assert InvalidVinMessage[0] == "Invalid VIN format. "[0] == 'I';
    }
  }
}

=== FILE: executor.dfy ===
/** The A2A executor that drives an ADK agent run as a task: precondition
    checks, the `submit` / `start_work` opening, the walk over the agent's
    event stream, cancellation, and the session get-or-create. The ADK runner
    is abstracted as the sequence of events it yields; the `TaskUpdater` as
    the sequence of updates it is asked to publish. */
module Executor {
  import opened Wrappers
  import opened Parts
  import opened Sessions

  /** The user id the executor passes to the session service and the runner. */
  const AgentUserId: string := "paystabl_agent"

  datatype Message = Message(parts: seq<A2aPart>)

  /** The fields of the A2A request context the executor reads. */
  datatype RequestContext = RequestContext(
    taskId: Option<string>,
    contextId: Option<string>,
    message: Option<Message>,
    hasCurrentTask: bool)

  /** One ADK event: whether it is the final response, whether it carries
      function calls, and its content parts (absent content reads as none). */
  datatype Event = Event(isFinal: bool, hasFunctionCalls: bool, parts: seq<GenaiPart>)

  /** What the executor asks the `TaskUpdater` to publish. */
  datatype Update =
    | Submit                             // `submit()`
    | StartWork                          // `start_work()`
    | WorkingMessage(parts: seq<A2aPart>) // `update_status(working, message)`
    | AddArtifact(parts: seq<A2aPart>)    // `add_artifact(parts)`
    | Complete                           // `complete()`

  datatype ExecError =
    | MissingIds                 // "RequestContext must have task_id and context_id"
    | MissingMessage             // "RequestContext must have a message"
    | Conversion(err: ConvError) // a part converter raised
    | UnsupportedOperation       // `cancel`

  /** The one call the executor makes to the runner. */
  datatype RunnerCall = RunnerCall(sessionId: string, userId: string, message: seq<GenaiPart>)

  /** Everything observable after one call: the published updates in order,
      the session store, the runner call if one was made, and the exception
      raised, if any. */
  datatype Execution = Execution(
    updates: seq<Update>,
    sessions: SessionStore,
    runnerCall: Option<RunnerCall>,
    error: Option<ExecError>)

  /** Updates published while walking the event stream, and the conversion
      error that ended the walk early, if any. */
  datatype StreamRun = StreamRun(updates: seq<Update>, error: Option<ConvError>)

  /** Progress of the task state each update announces: submitted, working,
      completed. An artifact is published while the task is still working. */
  function Level(u: Update): nat {
    match u
    case Submit => 0
    case StartWork => 1
    case WorkingMessage(_) => 1
    case AddArtifact(_) => 1
    case Complete => 2
  }

  /** No update announces an earlier state than one before it. */
  predicate Monotone(us: seq<Update>) {
    forall i, j :: 0 <= i < j < |us| ==> Level(us[i]) <= Level(us[j])
  }

  /** The shape of what the stream walk publishes: working messages, then at
      most one artifact, immediately followed by the single, last `Complete`. */
  predicate StreamShaped(us: seq<Update>) {
    forall i :: 0 <= i < |us| ==> ShapedAt(us, i)
  }

  predicate ShapedAt(us: seq<Update>, i: nat)
    requires i < |us|
  {
    || us[i].WorkingMessage?
    || (us[i].AddArtifact? && i == |us| - 2 && us[i + 1] == Complete)
    || (us[i] == Complete && i == |us| - 1 && i >= 1 && us[i - 1].AddArtifact?)
  }

  predicate NoFinal(events: seq<Event>) {
    forall i :: 0 <= i < |events| ==> !events[i].isFinal
  }

  function PrependUpdates(us: seq<Update>, run: StreamRun): StreamRun {
    StreamRun(us + run.updates, run.error)
  }

  /** The `async for` loop of `_process_request`, as a recursive definition:
      the first final event publishes its parts as the artifact and completes;
      an earlier event without function calls publishes a working message;
      a conversion error ends the walk with nothing further published. */
  function StreamTrace(events: seq<Event>): (r: StreamRun)
    ensures StreamShaped(r.updates)
    ensures NoFinal(events) ==> forall i :: 0 <= i < |r.updates| ==> r.updates[i].WorkingMessage?
    ensures |r.updates| <= |events| + 1
  {
    if events == [] then StreamRun([], None)
    else
      var e := events[0];
      if e.isFinal then
        match GenaiToA2aAll(e.parts)
        case Err(x) => StreamRun([], Some(x))
        case Ok(ps) => StreamRun([AddArtifact(ps), Complete], None)
      else if !e.hasFunctionCalls then
        match GenaiToA2aAll(e.parts)
        case Err(x) => StreamRun([], Some(x))
        case Ok(ps) =>
          var rest := StreamTrace(events[1..]);
          assert NoFinal(events) ==> NoFinal(events[1..]);
          WorkingThenShaped(ps, rest.updates);
          StreamRun([WorkingMessage(ps)] + rest.updates, rest.error)
      else
        assert NoFinal(events) ==> NoFinal(events[1..]);
        StreamTrace(events[1..])
  }

  lemma WorkingThenShaped(ps: seq<A2aPart>, us: seq<Update>)
    requires StreamShaped(us)
    ensures StreamShaped([WorkingMessage(ps)] + us)
  {
    var vs := [WorkingMessage(ps)] + us;
    forall i | 0 <= i < |vs|
      ensures ShapedAt(vs, i)
    {
      if i > 0 {
        assert ShapedAt(us, i - 1);
        assert vs[i] == us[i - 1];
        if i + 1 < |vs| { assert vs[i + 1] == us[i]; }
        if i >= 2 { assert vs[i - 1] == us[i - 2]; }
      }
    }
  }

  /** Every update of a stream-shaped sequence announces at least `working`,
      and only its last can announce completion. */
  lemma ShapedLevels(us: seq<Update>)
    requires StreamShaped(us)
    ensures forall i :: 0 <= i < |us| ==> us[i] != Submit && us[i] != StartWork && Level(us[i]) >= 1
    ensures forall i :: 0 <= i < |us| - 1 ==> Level(us[i]) == 1
  {
    forall i | 0 <= i < |us|
      ensures us[i] != Submit && us[i] != StartWork && Level(us[i]) >= 1
      ensures i < |us| - 1 ==> Level(us[i]) == 1
    {
      assert ShapedAt(us, i);
    }
  }

  /** `_process_request`'s loop over the runner's events, with its `break`. */
  method ProcessEvents(events: seq<Event>) returns (updates: seq<Update>, error: Option<ConvError>)
    ensures StreamRun(updates, error) == StreamTrace(events)
  {
    updates := [];
    error := None;
    var i := 0;
    while i < |events|
      invariant 0 <= i <= |events|
      invariant error.None?
      invariant StreamTrace(events) == PrependUpdates(updates, StreamTrace(events[i..]))
    {
      var e := events[i];
      assert events[i..][0] == e && events[i..][1..] == events[i + 1..];
      if e.isFinal {
        match GenaiToA2aAll(e.parts)
        case Err(x) =>
          error := Some(x);
          assert updates + [] == updates;
          return;
        case Ok(ps) =>
          updates := updates + [AddArtifact(ps), Complete];
          return;
      }
      if !e.hasFunctionCalls {
        match GenaiToA2aAll(e.parts)
        case Err(x) =>
          error := Some(x);
          assert updates + [] == updates;
          return;
        case Ok(ps) =>
          updates := updates + [WorkingMessage(ps)];
      }
      i := i + 1;
    }
    assert events[i..] == [];
    assert updates + [] == updates;
  }

  /** What `execute` checks before doing anything. */
  predicate Admissible(ctx: RequestContext) {
    Truthy(ctx.taskId) && Truthy(ctx.contextId) && ctx.message.Some?
  }

  /** `submit()` only for a new task, then `start_work()`. */
  function Opening(ctx: RequestContext): seq<Update> {
    if ctx.hasCurrentTask then [StartWork] else [Submit, StartWork]
  }

  /** `execute` followed by `_process_request`: checks the identifiers and the
      message, opens the task, converts the incoming message (after the
      opening, as the call's argument), gets or creates the session named by
      the context id, runs the agent on it and walks the events it yields. */
  function Execute(ctx: RequestContext, appName: string, store: SessionStore, events: seq<Event>): (r: Execution)
    ensures r.error == Some(MissingIds) <==> !Truthy(ctx.taskId) || !Truthy(ctx.contextId)
    ensures r.error == Some(MissingMessage) <==> Truthy(ctx.taskId) && Truthy(ctx.contextId) && ctx.message.None?
    ensures !Admissible(ctx) ==> r.updates == [] && r.runnerCall.None? && r.sessions == store
    ensures Admissible(ctx) ==> |r.updates| >= |Opening(ctx)| && r.updates[..|Opening(ctx)|] == Opening(ctx)
    ensures Admissible(ctx) ==> StreamShaped(r.updates[|Opening(ctx)|..])
    ensures r.runnerCall.Some? <==> Admissible(ctx) && A2aToGenaiAll(ctx.message.value.parts).Ok?
    ensures r.runnerCall.Some? ==> r.runnerCall.value.message == A2aToGenaiAll(ctx.message.value.parts).value
    ensures r.runnerCall.None? ==> r.sessions == store
    ensures Admissible(ctx) && A2aToGenaiAll(ctx.message.value.parts).Err? ==>
      && r.updates == Opening(ctx)
      && r.error == Some(Conversion(A2aToGenaiAll(ctx.message.value.parts).error))
    ensures r.runnerCall.Some? ==>
      && r.updates == Opening(ctx) + StreamTrace(events).updates
      && (StreamTrace(events).error.None? ==> r.error.None?)
      && (StreamTrace(events).error.Some? ==> r.error == Some(Conversion(StreamTrace(events).error.value)))
    ensures r.error.None? ==> r.runnerCall.Some? && StreamTrace(events).error.None?
    ensures r.runnerCall.Some? ==> r.sessions == Upsert(store, appName, AgentUserId, ctx.contextId.value).1
    ensures Monotone(r.updates)
  {
    if !Truthy(ctx.taskId) || !Truthy(ctx.contextId) then
      Execution([], store, None, Some(MissingIds))
    else if ctx.message.None? then
      Execution([], store, None, Some(MissingMessage))
    else
      var opening := Opening(ctx);
      match A2aToGenaiAll(ctx.message.value.parts)
      case Err(x) =>
        assert Monotone(opening);
        assert opening[|opening|..] == [];
        Execution(opening, store, None, Some(Conversion(x)))
      case Ok(content) =>
        var (session, store') := Upsert(store, appName, AgentUserId, ctx.contextId.value);
        var run := StreamTrace(events);
        OpeningThenStreamMonotone(opening, run.updates);
        assert (opening + run.updates)[..|opening|] == opening;
        assert (opening + run.updates)[|opening|..] == run.updates;
        Execution(
          opening + run.updates,
          store',
          Some(RunnerCall(session.id, AgentUserId, content)),
          if run.error.Some? then Some(Conversion(run.error.value)) else None)
  }

  lemma OpeningThenStreamMonotone(opening: seq<Update>, stream: seq<Update>)
    requires opening == [StartWork] || opening == [Submit, StartWork]
    requires StreamShaped(stream)
    ensures Monotone(opening + stream)
  {
    var us := opening + stream;
    ShapedLevels(stream);
    forall i, j | 0 <= i < j < |us|
      ensures Level(us[i]) <= Level(us[j])
    {
      if j >= |opening| {
        assert us[j] == stream[j - |opening|];
        if i >= |opening| {
          assert us[i] == stream[i - |opening|];
          assert i - |opening| < |stream| - 1;
        }
      }
    }
  }

  /** `cancel` always raises the unsupported-operation error and touches
      nothing. */
  function Cancel(ctx: RequestContext, store: SessionStore): (r: Execution)
    ensures r.error == Some(UnsupportedOperation)
    ensures r.updates == [] && r.sessions == store && r.runnerCall.None?
  {
    Execution([], store, None, Some(UnsupportedOperation))
  }

  // ---------------------------------------------------------------- stream lemmas

  /** Once the stream holds a final event, nothing after the stream prefix
      that contains it is ever looked at. */
  lemma {:induction false} StopsAtFinal(a: seq<Event>, b: seq<Event>)
    requires !NoFinal(a)
    ensures StreamTrace(a + b) == StreamTrace(a)
  {
    assert a != [];
    assert (a + b)[0] == a[0] && (a + b)[1..] == a[1..] + b;
    if !a[0].isFinal {
      StopsAtFinal(a[1..], b);
    }
  }

  /** A conversion error raised by a prefix of the stream ends the walk: no
      later event publishes anything, and the error is the one reported. */
  lemma {:induction false} StopsAtError(a: seq<Event>, b: seq<Event>)
    requires StreamTrace(a).error.Some?
    ensures StreamTrace(a + b) == StreamTrace(a)
  {
    assert a != [];
    assert (a + b)[0] == a[0] && (a + b)[1..] == a[1..] + b;
    var e := a[0];
    if e.isFinal {
    } else if e.hasFunctionCalls {
      StopsAtError(a[1..], b);
    } else if GenaiToA2aAll(e.parts).Ok? {
      var w := [WorkingMessage(GenaiToA2aAll(e.parts).value)];
      assert StreamTrace(a) == PrependUpdates(w, StreamTrace(a[1..]));
      StopsAtError(a[1..], b);
      assert StreamTrace(a + b) == PrependUpdates(w, StreamTrace(a[1..] + b));
    }
  }

  /** What a non-final event publishes by itself when it converts cleanly. */
  function Emitted(e: Event): seq<Update>
    requires e.hasFunctionCalls || GenaiToA2aAll(e.parts).Ok?
  {
    if e.hasFunctionCalls then [] else [WorkingMessage(GenaiToA2aAll(e.parts).value)]
  }

  lemma HeadConverts(events: seq<Event>)
    requires events != [] && !events[0].isFinal && StreamTrace(events).error.None?
    ensures events[0].hasFunctionCalls || GenaiToA2aAll(events[0].parts).Ok?
  {
  }

  lemma StreamStep(events: seq<Event>)
    requires events != [] && !events[0].isFinal
    requires events[0].hasFunctionCalls || GenaiToA2aAll(events[0].parts).Ok?
    ensures StreamTrace(events) == PrependUpdates(Emitted(events[0]), StreamTrace(events[1..]))
  {
    if events[0].hasFunctionCalls {
      assert [] + StreamTrace(events[1..]).updates == StreamTrace(events[1..]).updates;
    }
  }

  /** A prefix without a final event and without conversion errors publishes
      its updates first, then the rest of the stream is walked: updates keep
      stream order. */
  lemma {:induction false} StreamAppend(a: seq<Event>, b: seq<Event>)
    requires NoFinal(a) && StreamTrace(a).error.None?
    ensures StreamTrace(a + b) == PrependUpdates(StreamTrace(a).updates, StreamTrace(b))
  {
    if a == [] {
      assert a + b == b;
    } else {
      var e := a[0];
      assert (a + b)[0] == e && (a + b)[1..] == a[1..] + b;
      HeadConverts(a);
      StreamStep(a);
      StreamStep(a + b);
      assert NoFinal(a[1..]);
      StreamAppend(a[1..], b);
      PrependTwice(Emitted(e), StreamTrace(a[1..]).updates, StreamTrace(b));
    }
  }

  lemma PrependTwice(w: seq<Update>, u: seq<Update>, run: StreamRun)
    ensures PrependUpdates(w, PrependUpdates(u, run)) == PrependUpdates(w + u, run)
  {
    assert w + (u + run.updates) == (w + u) + run.updates;
  }

  /** What each single event publishes on its own. */
  lemma SingleEvent(e: Event)
    ensures var r := StreamTrace([e]);
      match GenaiToA2aAll(e.parts)
      case Err(x) => (e.isFinal || !e.hasFunctionCalls) ==> r == StreamRun([], Some(x))
      case Ok(ps) =>
        && (e.isFinal ==> r == StreamRun([AddArtifact(ps), Complete], None))
        && (!e.isFinal && !e.hasFunctionCalls ==> r == StreamRun([WorkingMessage(ps)], None))
    ensures !e.isFinal && e.hasFunctionCalls ==> StreamTrace([e]) == StreamRun([], None)
  {
    assert [e][1..] == [];
  }

  /** The first final event, when every earlier event converted cleanly and
      its own parts convert, publishes exactly one artifact holding its parts
      and then completes; completion is the last update. */
  lemma FirstFinalCompletes(events: seq<Event>, k: nat)
    requires k < |events| && events[k].isFinal && NoFinal(events[..k])
    requires StreamTrace(events[..k]).error.None?
    requires GenaiToA2aAll(events[k].parts).Ok?
    ensures StreamTrace(events) ==
      StreamRun(StreamTrace(events[..k]).updates + [AddArtifact(GenaiToA2aAll(events[k].parts).value), Complete], None)
  {
    assert events == events[..k] + events[k..];
    StreamAppend(events[..k], events[k..]);
    assert events[k..][0] == events[k];
  }

  /** Completion happens only because of a final event whose parts convert,
      and the stream walk reports no error then. */
  lemma {:induction false} CompleteNeedsFinal(events: seq<Event>)
    requires var us := StreamTrace(events).updates; |us| > 0 && us[|us| - 1] == Complete
    ensures !NoFinal(events)
    ensures StreamTrace(events).error.None?
  {
    var e := events[0];
    if !e.isFinal {
      if !e.hasFunctionCalls {
        var ps := GenaiToA2aAll(e.parts).value;
        assert StreamTrace(events).updates == [WorkingMessage(ps)] + StreamTrace(events[1..]).updates;
      }
      CompleteNeedsFinal(events[1..]);
      var i :| 0 <= i < |events[1..]| && events[1..][i].isFinal;
      assert events[i + 1].isFinal;
    }
  }

  // ---------------------------------------------------------------- execute lemmas

  /** The published sequence of an admissible run is the opening followed by
      what the stream walk publishes, and the runner runs on the session of
      the context id. */
  lemma ExecuteRuns(ctx: RequestContext, appName: string, store: SessionStore, events: seq<Event>)
    requires Admissible(ctx) && A2aToGenaiAll(ctx.message.value.parts).Ok?
    requires WellKeyed(store)
    ensures var r := Execute(ctx, appName, store, events);
      && r.updates == Opening(ctx) + StreamTrace(events).updates
      && r.runnerCall.value.sessionId == ctx.contextId.value
      && r.runnerCall.value.userId == AgentUserId
      && WellKeyed(r.sessions)
      && r.sessions == Upsert(store, appName, AgentUserId, ctx.contextId.value).1
      && SessionKey(appName, AgentUserId, ctx.contextId.value) in r.sessions
      && (r.error.None? <==> StreamTrace(events).error.None?)
  {
    UpsertWellKeyed(store, appName, AgentUserId, ctx.contextId.value);
  }

  /** `submit` is published exactly when there is no current task, and only
      as the first update; `start_work` comes once, before every update the
      stream causes. */
  lemma SubmitOnlyForNewTask(ctx: RequestContext, appName: string, store: SessionStore, events: seq<Event>)
    requires Admissible(ctx)
    ensures var us := Execute(ctx, appName, store, events).updates;
      && ((exists i :: 0 <= i < |us| && us[i] == Submit) <==> !ctx.hasCurrentTask)
      && (forall i :: 0 <= i < |us| && us[i] == Submit ==> i == 0)
      && (forall i :: 0 <= i < |us| && us[i] == StartWork ==> i == |Opening(ctx)| - 1)
  {
    var us := Execute(ctx, appName, store, events).updates;
    var n := |Opening(ctx)|;
    assert us[..n] == Opening(ctx);
    assert StreamShaped(us[n..]);
    ShapedLevels(us[n..]);
    forall i | n <= i < |us|
      ensures us[i] != Submit && us[i] != StartWork
    {
      assert us[i] == us[n..][i - n];
    }
    if !ctx.hasCurrentTask {
      assert us[0] == us[..n][0];
    }
  }

  /** With no final event in the stream, no artifact and no completion are
      ever published: the task is left working. */
  lemma NoFinalLeavesWorking(ctx: RequestContext, appName: string, store: SessionStore, events: seq<Event>)
    requires NoFinal(events)
    ensures var us := Execute(ctx, appName, store, events).updates;
      forall i :: 0 <= i < |us| ==> !us[i].AddArtifact? && us[i] != Complete
  {
    var r := Execute(ctx, appName, store, events);
    if Admissible(ctx) && A2aToGenaiAll(ctx.message.value.parts).Ok? {
      var n := |Opening(ctx)|;
      var s := StreamTrace(events).updates;
      assert r.updates == Opening(ctx) + s;
      forall i | 0 <= i < |r.updates|
        ensures !r.updates[i].AddArtifact? && r.updates[i] != Complete
      {
        if i >= n {
          assert r.updates[i] == s[i - n];
        }
      }
    }
  }
}

=== FILE: parts.dfy ===
/** The two part unions the executor translates between: A2A message parts
    (`TextPart`, `FilePart` holding `FileWithUri` or `FileWithBytes`, and
    `DataPart`) and Google GenAI content parts (a record whose `text`,
    `file_data` and `inline_data` fields are each optional). */
module Parts {
  import opened Wrappers
  import opened Utf8

  /** The media type substituted for a byte file that carries none. */
  const OctetStream: string := "application/octet-stream"

  datatype A2aFile =
    | FileWithUri(uri: string, mimeType: Option<string>)
    | FileWithBytes(bytes: string, mimeType: Option<string>)

  /** `DataPart` carries a structured payload that the converters never look
      into; it is kept as opaque text. */
  datatype A2aPart =
    | TextPart(text: string)
    | FilePart(file: A2aFile)
    | DataPart(data: string)

  datatype FileData = FileData(fileUri: Option<string>, mimeType: Option<string>)
  datatype Blob = Blob(data: Option<seq<byte>>, mimeType: Option<string>)
  datatype GenaiPart = GenaiPart(text: Option<string>, fileData: Option<FileData>, inlineData: Option<Blob>)

  datatype ConvError =
    | UnsupportedPart     // the `ValueError` for a part that is neither text nor file
    | InvalidUtf8         // the `UnicodeDecodeError` of decoding inline bytes

  /** Python truthiness of an optional string: present and non-empty. */
  predicate Truthy(s: Option<string>) { s.Some? && s.value != "" }

  predicate HasText(p: GenaiPart) { Truthy(p.text) }
  predicate HasUri(p: GenaiPart) { p.fileData.Some? && Truthy(p.fileData.value.fileUri) }
  predicate HasInline(p: GenaiPart) {
    p.inlineData.Some? && p.inlineData.value.data.Some? && p.inlineData.value.data.value != []
  }

  /** A GenAI part the converter keeps: it has text, a file URI or inline bytes. */
  predicate Carries(p: GenaiPart) { HasText(p) || HasUri(p) || HasInline(p) }

  // ---------------------------------------------------------------- A2A -> GenAI

  /** `convert_a2a_part_to_genai`. */
  function A2aToGenai(part: A2aPart): (r: Result<GenaiPart, ConvError>)
    ensures r.Err? <==> part.DataPart?
    ensures r.Err? ==> r.error == UnsupportedPart
    ensures part.TextPart? ==> r.value.text == Some(part.text) && r.value.fileData.None? && r.value.inlineData.None?
    ensures part.FilePart? && part.file.FileWithUri? ==>
      && r.value.text.None? && r.value.inlineData.None?
      && r.value.fileData == Some(FileData(Some(part.file.uri), part.file.mimeType))
    ensures part.FilePart? && part.file.FileWithBytes? ==>
      && r.value.text.None? && r.value.fileData.None? && r.value.inlineData.Some?
      && r.value.inlineData.value.data.Some?
      && Decode(r.value.inlineData.value.data.value) == Some(part.file.bytes)
      && Truthy(r.value.inlineData.value.mimeType)
      && (Truthy(part.file.mimeType) ==> r.value.inlineData.value.mimeType == part.file.mimeType)
      && (!Truthy(part.file.mimeType) ==> r.value.inlineData.value.mimeType == Some(OctetStream))
  {
    match part
    case TextPart(t) => Ok(GenaiPart(Some(t), None, None))
    case FilePart(FileWithUri(uri, mt)) => Ok(GenaiPart(None, Some(FileData(Some(uri), mt)), None))
    case FilePart(FileWithBytes(text, mt)) =>
      DecodeEncode(text);
      var mime := if Truthy(mt) then mt.value else OctetStream;
      Ok(GenaiPart(None, None, Some(Blob(Some(Encode(text)), Some(mime)))))
    case DataPart(_) => Err(UnsupportedPart)
  }

  /** `convert_a2a_parts_to_genai`: the list comprehension raises on the first
      unsupported part; otherwise it converts every part, in order. */
  function A2aToGenaiAll(parts: seq<A2aPart>): (r: Result<seq<GenaiPart>, ConvError>)
    ensures r.Ok? <==> forall i :: 0 <= i < |parts| ==> !parts[i].DataPart?
    ensures r.Ok? ==> |r.value| == |parts|
    ensures r.Ok? ==> forall i :: 0 <= i < |parts| ==> A2aToGenai(parts[i]) == Ok(r.value[i])
  {
    if parts == [] then Ok([])
    else match A2aToGenai(parts[0])
      case Err(e) => Err(e)
      case Ok(g) =>
        match A2aToGenaiAll(parts[1..])
        case Err(e) => Err(e)
        case Ok(gs) => Ok([g] + gs)
  }

  // ---------------------------------------------------------------- GenAI -> A2A

  /** One iteration of the loop in `convert_genai_parts_to_a2a`: `Ok(None)`
      when the part is skipped. */
  function GenaiToA2a(p: GenaiPart): (r: Result<Option<A2aPart>, ConvError>)
    ensures HasText(p) ==> r == Ok(Some(TextPart(p.text.value)))
    ensures !HasText(p) && HasUri(p) ==>
      r == Ok(Some(FilePart(FileWithUri(p.fileData.value.fileUri.value, p.fileData.value.mimeType))))
    ensures !HasText(p) && !HasUri(p) && HasInline(p) && r.Ok? ==>
      && r.value.Some? && r.value.value.FilePart? && r.value.value.file.FileWithBytes?
      && Decode(p.inlineData.value.data.value) == Some(r.value.value.file.bytes)
      && r.value.value.file.mimeType == p.inlineData.value.mimeType
    ensures r == Ok(None) <==> !Carries(p)
    ensures r.Err? <==> !HasText(p) && !HasUri(p) && HasInline(p) && Decode(p.inlineData.value.data.value).None?
    ensures r.Ok? && r.value.Some? ==> !r.value.value.DataPart?
  {
    if HasText(p) then
      Ok(Some(TextPart(p.text.value)))
    else if HasUri(p) then
      Ok(Some(FilePart(FileWithUri(p.fileData.value.fileUri.value, p.fileData.value.mimeType))))
    else if HasInline(p) then
      match Decode(p.inlineData.value.data.value)
      case None => Err(InvalidUtf8)
      case Some(s) => Ok(Some(FilePart(FileWithBytes(s, p.inlineData.value.mimeType))))
    else
      Ok(None)
  }

  /** Number of parts in `ps` the converter keeps. */
  function CountCarrying(ps: seq<GenaiPart>): (n: nat)
    ensures n <= |ps|
  {
    if ps == [] then 0 else (if Carries(ps[0]) then 1 else 0) + CountCarrying(ps[1..])
  }

  /** `convert_genai_parts_to_a2a`: the first undecodable inline part raises;
      otherwise one A2A part per carrying GenAI part, in the same order. */
  function GenaiToA2aAll(ps: seq<GenaiPart>): (r: Result<seq<A2aPart>, ConvError>)
    ensures r.Ok? <==> forall i :: 0 <= i < |ps| ==> GenaiToA2a(ps[i]).Ok?
    ensures r.Err? ==> r.error == InvalidUtf8
    ensures r.Ok? ==> |r.value| == CountCarrying(ps) <= |ps|
    ensures r.Ok? ==> forall i :: 0 <= i < |r.value| ==> !r.value[i].DataPart?
  {
    if ps == [] then Ok([])
    else match GenaiToA2a(ps[0])
      case Err(e) => Err(e)
      case Ok(head) =>
        match GenaiToA2aAll(ps[1..])
        case Err(e) =>
          assert exists i :: 0 <= i < |ps[1..]| && !GenaiToA2a(ps[1..][i]).Ok?;
          Err(e)
        case Ok(tail) =>
          assert forall i :: 0 < i < |ps| ==> ps[i] == ps[1..][i - 1];
          Ok((if head.Some? then [head.value] else []) + tail)
  }

  /** A single part converts to the list holding its conversion, or to the
      empty list when it is skipped; with `GenaiToA2aAllAppend` this fixes the
      output of every list. */
  lemma GenaiToA2aAllSingle(p: GenaiPart)
    ensures GenaiToA2aAll([p]) ==
      match GenaiToA2a(p)
      case Err(e) => Err(e)
      case Ok(None) => Ok([])
      case Ok(Some(a)) => Ok([a])
  {
    assert [p][1..] == [];
    match GenaiToA2a(p)
    case Err(_) =>
    case Ok(None) => assert GenaiToA2aAll([p]) == Ok([]);
    case Ok(Some(a)) => assert [a] + [] == [a];
  }

  /** Converting a kept GenAI part back to GenAI reproduces the payload that
      won: the text if there is any, else the file data, else the inline bytes
      (with their media type when that is non-empty). */
  lemma GenaiToA2aBack(p: GenaiPart)
    requires GenaiToA2a(p).Ok? && GenaiToA2a(p).value.Some?
    ensures var g := A2aToGenai(GenaiToA2a(p).value.value).value;
      && (HasText(p) ==> g == GenaiPart(p.text, None, None))
      && (!HasText(p) && HasUri(p) ==> g == GenaiPart(None, p.fileData, None))
      && (!HasText(p) && !HasUri(p) ==>
            && g.text.None? && g.fileData.None? && g.inlineData.Some?
            && g.inlineData.value.data == p.inlineData.value.data
            && (Truthy(p.inlineData.value.mimeType) ==> g.inlineData.value.mimeType == p.inlineData.value.mimeType))
  {
    if !HasText(p) && !HasUri(p) {
      EncodeDecode(p.inlineData.value.data.value);
    }
  }

  /** Converting a concatenation converts each half and concatenates, so the
      output keeps the input's order; an error in the first half wins. */
  lemma {:induction false} GenaiToA2aAllAppend(a: seq<GenaiPart>, b: seq<GenaiPart>)
    ensures GenaiToA2aAll(a + b) ==
      match GenaiToA2aAll(a)
      case Err(e) => Err(e)
      case Ok(x) =>
        match GenaiToA2aAll(b)
        case Err(e) => Err(e)
        case Ok(y) => Ok(x + y)
  {
    if a == [] {
      assert a + b == b;
      match GenaiToA2aAll(b)
      case Err(_) =>
      case Ok(y) => assert [] + y == y;
    } else {
      assert (a + b)[0] == a[0];
      assert (a + b)[1..] == a[1..] + b;
      GenaiToA2aAllAppend(a[1..], b);
      match GenaiToA2a(a[0])
      case Err(_) =>
      case Ok(head) =>
        var h := if head.Some? then [head.value] else [];
        match GenaiToA2aAll(a[1..])
        case Err(_) =>
        case Ok(x) =>
          match GenaiToA2aAll(b)
          case Err(_) =>
          case Ok(y) => assert h + (x + y) == (h + x) + y;
    }
  }

  /** When every part has text, the conversion is total and maps part `i` to
      the text part of `ps[i]`, whatever file fields it also carries. */
  lemma {:induction false} TextOnlyConversion(ps: seq<GenaiPart>)
    requires forall i :: 0 <= i < |ps| ==> HasText(ps[i])
    ensures GenaiToA2aAll(ps).Ok?
    ensures |GenaiToA2aAll(ps).value| == |ps|
    ensures forall i :: 0 <= i < |ps| ==>
      GenaiToA2aAll(ps).value[i].TextPart? && Some(GenaiToA2aAll(ps).value[i].text) == ps[i].text
  {
    if ps != [] {
      TextOnlyConversion(ps[1..]);
      var tail := GenaiToA2aAll(ps[1..]).value;
      assert GenaiToA2aAll(ps).value == [TextPart(ps[0].text.value)] + tail;
    }
  }

  // ---------------------------------------------------------------- round trip

  /** The A2A parts that survive a trip to GenAI and back unchanged: non-empty
      text, a file by non-empty URI, and non-empty file bytes with a non-empty
      media type. */
  predicate RoundTrips(part: A2aPart) {
    match part
    case TextPart(t) => t != ""
    case FilePart(FileWithUri(uri, _)) => uri != ""
    case FilePart(FileWithBytes(text, mt)) => text != "" && Truthy(mt)
    case DataPart(_) => false
  }

  lemma RoundTripPart(part: A2aPart)
    requires RoundTrips(part)
    ensures GenaiToA2a(A2aToGenai(part).value) == Ok(Some(part))
  {
    if part.FilePart? && part.file.FileWithBytes? {
      DecodeEncode(part.file.bytes);
    }
  }

  /** Mapping A2A parts to GenAI and back is the identity on parts that
      round-trip. */
  lemma {:induction false} RoundTripAll(parts: seq<A2aPart>)
    requires forall i :: 0 <= i < |parts| ==> RoundTrips(parts[i])
    ensures A2aToGenaiAll(parts).Ok?
    ensures GenaiToA2aAll(A2aToGenaiAll(parts).value) == Ok(parts)
  {
    if parts != [] {
      RoundTripPart(parts[0]);
      RoundTripAll(parts[1..]);
      var gs := A2aToGenaiAll(parts).value;
      assert gs[1..] == A2aToGenaiAll(parts[1..]).value;
      assert [parts[0]] + parts[1..] == parts;
    }
  }

  /** A byte file with no media type comes back labelled
      `application/octet-stream`, so it does not round-trip. */
  lemma MissingMimeTypeBecomesOctetStream(text: string)
    requires text != ""
    ensures GenaiToA2a(A2aToGenai(FilePart(FileWithBytes(text, None))).value)
         == Ok(Some(FilePart(FileWithBytes(text, Some(OctetStream)))))
  {
    DecodeEncode(text);
  }

  /** Empty text, an empty URI and empty bytes are dropped on the way back. */
  lemma EmptyPayloadDropped(part: A2aPart)
    requires part.TextPart? ==> part.text == ""
    requires part.FilePart? && part.file.FileWithUri? ==> part.file.uri == ""
    requires part.FilePart? && part.file.FileWithBytes? ==> part.file.bytes == ""
    requires !part.DataPart?
    ensures GenaiToA2a(A2aToGenai(part).value) == Ok(None)
  {
  }
}

=== FILE: sessions.dfy ===
/** The session store `_upsert_session` talks to: ADK's session service keeps
    sessions under (application name, user id, session id). */
module Sessions {

  datatype SessionKey = SessionKey(appName: string, userId: string, id: string)
  datatype Session = Session(appName: string, userId: string, id: string)

  type SessionStore = map<SessionKey, Session>

  function KeyOf(s: Session): SessionKey { SessionKey(s.appName, s.userId, s.id) }

  /** Every session is stored under its own key, so there is at most one
      session per id. */
  ghost predicate WellKeyed(store: SessionStore) {
    forall k :: k in store ==> KeyOf(store[k]) == k
  }

  /** `_upsert_session`: `get_session`, and `create_session` when that found
      nothing. Returns the session and the store afterwards. */
  function Upsert(store: SessionStore, appName: string, userId: string, id: string): (r: (Session, SessionStore))
    ensures var k := SessionKey(appName, userId, id);
      && r.1.Keys == store.Keys + {k}
      && k in r.1 && r.1[k] == r.0
      && (k in store ==> r.0 == store[k] && r.1 == store)
      && (k !in store ==> KeyOf(r.0) == k)
    ensures forall k' :: k' in store ==> k' in r.1 && r.1[k'] == store[k']
  {
    var k := SessionKey(appName, userId, id);
    if k in store then (store[k], store)
    else
      var s := Session(appName, userId, id);
      (s, store[k := s])
  }

  /** Upserting keeps the store well keyed, and then the session returned has
      the requested id. */
  lemma UpsertWellKeyed(store: SessionStore, appName: string, userId: string, id: string)
    requires WellKeyed(store)
    ensures WellKeyed(Upsert(store, appName, userId, id).1)
    ensures Upsert(store, appName, userId, id).0.id == id
  {
    var k := SessionKey(appName, userId, id);
    if k in store {
      assert KeyOf(store[k]) == k;
    }
  }

  /** A second upsert of the same id finds the first one's session and
      changes nothing. */
  lemma UpsertIdempotent(store: SessionStore, appName: string, userId: string, id: string)
    ensures var (s, store') := Upsert(store, appName, userId, id);
      Upsert(store', appName, userId, id) == (s, store')
  {
  }
}

=== FILE: text.dfy ===
/** The pieces of Python's `str` behaviour the Carfax agent relies on:
    `str.split()` with no argument, and `str(int)`. */
module Text {

  /** Python's `str.isspace`: the characters `str.split()` splits on. */
  predicate IsSpace(c: char) {
    var n := c as int;
    || 0x09 <= n <= 0x0D || 0x1C <= n <= 0x20
    || n == 0x85 || n == 0xA0 || n == 0x1680
    || 0x2000 <= n <= 0x200A
    || n == 0x2028 || n == 0x2029 || n == 0x202F || n == 0x205F || n == 0x3000
  }

  predicate NoSpace(w: string) { forall i :: 0 <= i < |w| ==> !IsSpace(w[i]) }

  /** A word as `str.split()` produces it: non-empty, without whitespace. */
  predicate IsWord(w: string) { w != [] && NoSpace(w) }

  /** Length of the run of non-whitespace characters at the start of `s`. */
  function WordLen(s: string): (n: nat)
    ensures n <= |s|
    ensures NoSpace(s[..n])
    ensures n < |s| ==> IsSpace(s[n])
  {
    if s == [] || IsSpace(s[0]) then 0
    else
      var n := 1 + WordLen(s[1..]);
      assert s[..n] == [s[0]] + s[1..][..n - 1];
      n
  }

  /** `s` with its whitespace removed. */
  function NonSpace(s: string): string {
    if s == [] then [] else (if IsSpace(s[0]) then [] else [s[0]]) + NonSpace(s[1..])
  }

  function Concat(ws: seq<string>): string {
    if ws == [] then [] else ws[0] + Concat(ws[1..])
  }

  lemma {:induction false} NonSpaceAppend(a: string, b: string)
    ensures NonSpace(a + b) == NonSpace(a) + NonSpace(b)
  {
    if a == [] {
      assert a + b == b;
    } else {
      assert (a + b)[0] == a[0] && (a + b)[1..] == a[1..] + b;
      NonSpaceAppend(a[1..], b);
    }
  }

  lemma {:induction false} NonSpaceOfWord(w: string)
    requires NoSpace(w)
    ensures NonSpace(w) == w
  {
    if w != [] {
      NonSpaceOfWord(w[1..]);
      assert [w[0]] + w[1..] == w;
    }
  }

  /** `s.split()`: the runs of non-whitespace characters, in order; together
      they hold every non-whitespace character of `s`, and leading, trailing
      and repeated whitespace produce no empty words. */
  function Words(s: string): (ws: seq<string>)
    ensures forall i :: 0 <= i < |ws| ==> IsWord(ws[i])
    ensures Concat(ws) == NonSpace(s)
    decreases |s|
  {
    if s == [] then []
    else if IsSpace(s[0]) then Words(s[1..])
    else
      var n := WordLen(s);
      var rest := Words(s[n..]);
      assert s == s[..n] + s[n..];
      NonSpaceAppend(s[..n], s[n..]);
      NonSpaceOfWord(s[..n]);
      assert Concat([s[..n]] + rest) == s[..n] + Concat(rest) by {
        assert ([s[..n]] + rest)[1..] == rest;
      }
      [s[..n]] + rest
  }

  /** `" ".join(ws)`. */
  function JoinSpaces(ws: seq<string>): string {
    if ws == [] then ""
    else if |ws| == 1 then ws[0]
    else ws[0] + " " + JoinSpaces(ws[1..])
  }

  lemma WordLenOfWord(w: string, rest: string)
    requires NoSpace(w)
    requires rest == [] || IsSpace(rest[0])
    ensures WordLen(w + rest) == |w|
    decreases |w|
  {
    if w != [] {
      assert (w + rest)[1..] == w[1..] + rest;
      WordLenOfWord(w[1..], rest);
    } else {
      assert w + rest == rest;
    }
  }

  /** Text after the first whitespace of `x` does not change where the first
      word of `x` ends. */
  lemma {:induction false} WordLenAppend(x: string, y: string)
    requires WordLen(x) < |x|
    ensures WordLen(x + y) == WordLen(x)
  {
    assert (x + y)[0] == x[0];
    if !IsSpace(x[0]) {
      assert (x + y)[1..] == x[1..] + y;
      WordLenAppend(x[1..], y);
    }
  }

  /** `str.split()` breaks at every whitespace character and nowhere else:
      one whitespace character splits the text into the words on its left
      followed by the words on its right. */
  lemma {:induction false} WordsAtSpace(a: string, c: char, b: string)
    requires IsSpace(c)
    ensures Words(a + [c] + b) == Words(a) + Words(b)
    decreases |a|
  {
    var s := a + [c] + b;
    if a == [] {
      assert s == [c] + b && s[1..] == b;
    } else if IsSpace(a[0]) {
      assert s[0] == a[0] && s[1..] == a[1..] + [c] + b;
      WordsAtSpace(a[1..], c, b);
    } else {
      var m := WordLen(a);
      assert s[0] == a[0];
      if m == |a| {
        assert a[..m] == a;
        WordLenOfWord(a, [c] + b);
        assert s == a + ([c] + b);
        assert s[..m] == a && s[m..] == [c] + b;
        assert ([c] + b)[1..] == b;
        assert Words(a) == [a] + Words(a[m..]);
        assert a[m..] == [];
      } else {
        WordLenAppend(a, [c] + b);
        assert s == a + ([c] + b);
        assert s[..m] == a[..m];
        assert s[m..] == a[m..] + [c] + b;
        WordsAtSpace(a[m..], c, b);
      }
    }
  }

  /** A single word splits into itself. */
  lemma WordsOfWord(w: string)
    requires IsWord(w)
    ensures Words(w) == [w]
  {
    WordLenOfWord(w, []);
    assert w + [] == w;
    assert w[..|w|] == w && w[|w|..] == [];
  }

  /** Splitting words joined by single spaces gives the words back. */
  lemma {:induction false} WordsJoinSpaces(ws: seq<string>)
    requires forall i :: 0 <= i < |ws| ==> IsWord(ws[i])
    ensures Words(JoinSpaces(ws)) == ws
  {
    if ws == [] {
    } else if |ws| == 1 {
      var w := ws[0];
      WordLenOfWord(w, []);
      assert w + [] == w;
      assert w[..|w|] == w && w[|w|..] == [];
    } else {
      var w := ws[0];
      var rest := JoinSpaces(ws[1..]);
      var s := w + " " + rest;
      WordLenOfWord(w, " " + rest);
      assert s == w + (" " + rest);
      assert s[..|w|] == w;
      assert s[|w|..] == " " + rest;
      assert (" " + rest)[1..] == rest;
      WordsJoinSpaces(ws[1..]);
      assert Words(s[|w|..]) == Words(rest);
      assert [w] + ws[1..] == ws;
    }
  }

  // ---------------------------------------------------------------- decimals

  predicate IsDigit(c: char) { '0' <= c <= '9' }

  function DigitChar(d: nat): (c: char)
    requires d < 10
    ensures IsDigit(c) && c as int - '0' as int == d
  {
    ('0' as int + d) as char
  }

  /** The decimal digits of `n`, most significant first, without leading zeros. */
  function NatToString(n: nat): (s: string)
    ensures s != [] && forall i :: 0 <= i < |s| ==> IsDigit(s[i])
  {
    if n < 10 then [DigitChar(n)] else NatToString(n / 10) + [DigitChar(n % 10)]
  }

  /** Python's `str(i)` for an integer. */
  function IntToString(i: int): (s: string)
    ensures s != []
  {
    if i < 0 then "-" + NatToString(-i) else NatToString(i)
  }

  /** The value of a string of decimal digits. */
  function DigitsValue(s: string): nat
    requires forall i :: 0 <= i < |s| ==> IsDigit(s[i])
  {
    if s == [] then 0
    else
      assert IsDigit(s[|s| - 1]);
      DigitsValue(s[..|s| - 1]) * 10 + (s[|s| - 1] as int - '0' as int)
  }

  /** Reads back what `IntToString` writes. */
  function ParseInt(s: string): int
    requires s != []
    requires forall i :: 0 < i < |s| ==> IsDigit(s[i])
    requires s[0] == '-' || IsDigit(s[0])
  {
    if s[0] == '-' then -(DigitsValue(s[1..]) as int) else DigitsValue(s)
  }

  lemma {:induction false} DigitsValueNatToString(n: nat)
    ensures DigitsValue(NatToString(n)) == n
  {
    if n >= 10 {
      var s := NatToString(n);
      assert s[..|s| - 1] == NatToString(n / 10);
      DigitsValueNatToString(n / 10);
    }
  }

  /** `str(i)` is read back as `i`: the rendering loses nothing. */
  lemma ParseIntToString(i: int)
    ensures ParseInt(IntToString(i)) == i
  {
    if i < 0 {
      assert IntToString(i)[1..] == NatToString(-i);
      DigitsValueNatToString(-i);
    } else {
      DigitsValueNatToString(i);
    }
  }

  /** Distinct integers render differently. */
  lemma IntToStringInjective(a: int, b: int)
    requires IntToString(a) == IntToString(b)
    ensures a == b
  {
    ParseIntToString(a);
    ParseIntToString(b);
  }

  /** `sub in s`. */
  ghost predicate Contains(s: string, sub: string) {
    exists i :: OccursAt(s, sub, i)
  }

  predicate OccursAt(s: string, sub: string, i: int) {
    0 <= i <= |s| - |sub| && s[i..i + |sub|] == sub
  }

  lemma ContainsMiddle(a: string, sub: string, b: string)
    ensures Contains(a + sub + b, sub)
  {
    var s := a + sub + b;
    assert s[|a|..|a| + |sub|] == sub;
    assert OccursAt(s, sub, |a|);
  }
}

=== FILE: utf8.dfy ===
/** Strict UTF-8, as Python's `str.encode("utf-8")` and `bytes.decode("utf-8")`
    perform it: the decoder refuses overlong forms, encoded surrogates, code
    points above U+10FFFF, stray continuation bytes and truncated sequences. */
module Utf8 {
  import opened Wrappers

  type byte = b: int | 0 <= b < 256

  /** A continuation byte `10xxxxxx`. */
  predicate IsCont(b: byte) { 0x80 <= b < 0xC0 }

  /** True when `n` is a Unicode scalar value, i.e. a legal Dafny `char`. */
  predicate IsScalar(n: int) { 0 <= n < 0xD800 || 0xE000 <= n <= 0x10FFFF }

  /** Number of bytes UTF-8 uses for one character. */
  function Width(c: char): (w: nat)
    ensures 1 <= w <= 4
  {
    var n := c as int;
    if n < 0x80 then 1 else if n < 0x800 then 2 else if n < 0x1_0000 then 3 else 4
  }

  function EncodeChar(c: char): (bs: seq<byte>)
    ensures |bs| == Width(c)
  {
    var n := c as int;
    if n < 0x80 then [n]
    else if n < 0x800 then [0xC0 + n / 64, 0x80 + n % 64]
    else if n < 0x1_0000 then [0xE0 + n / 4096, 0x80 + (n / 64) % 64, 0x80 + n % 64]
    else [0xF0 + n / 262144, 0x80 + (n / 4096) % 64, 0x80 + (n / 64) % 64, 0x80 + n % 64]
  }

  /** `s.encode("utf-8")`. */
  function Encode(s: string): (bs: seq<byte>)
    ensures |bs| >= |s|
    ensures s == [] <==> bs == []
  {
    if s == [] then [] else EncodeChar(s[0]) + Encode(s[1..])
  }

  /** Decodes the first character of `bs`, returning it with the number of
      bytes it used, or `None` when the leading bytes are not well-formed. */
  function DecodeFirst(bs: seq<byte>): (r: Option<(char, nat)>)
    requires bs != []
    ensures r.Some? ==> 1 <= r.value.1 <= |bs| && r.value.1 == Width(r.value.0)
  {
    var b0 := bs[0] as int;
    if b0 < 0x80 then
      Some((b0 as char, 1))
    else if 0xC2 <= b0 <= 0xDF && |bs| >= 2 && IsCont(bs[1]) then
      var n := (b0 - 0xC0) * 64 + (bs[1] as int - 0x80);
      Some((n as char, 2))
    else if 0xE0 <= b0 <= 0xEF && |bs| >= 3 && IsCont(bs[1]) && IsCont(bs[2]) then
      var n := (b0 - 0xE0) * 4096 + (bs[1] as int - 0x80) * 64 + (bs[2] as int - 0x80);
      if 0x800 <= n && IsScalar(n) then Some((n as char, 3)) else None
    else if 0xF0 <= b0 <= 0xF4 && |bs| >= 4 && IsCont(bs[1]) && IsCont(bs[2]) && IsCont(bs[3]) then
      var n := (b0 - 0xF0) * 262144 + (bs[1] as int - 0x80) * 4096 + (bs[2] as int - 0x80) * 64 + (bs[3] as int - 0x80);
      if 0x1_0000 <= n <= 0x10FFFF then Some((n as char, 4)) else None
    else
      None
  }

  /** `bs.decode("utf-8")`; `None` stands for the `UnicodeDecodeError` it raises. */
  function Decode(bs: seq<byte>): (r: Option<string>)
    ensures r.Some? ==> |r.value| <= |bs|
    decreases |bs|
  {
    if bs == [] then Some([])
    else match DecodeFirst(bs)
      case None => None
      case Some((c, k)) =>
        match Decode(bs[k..])
        case None => None
        case Some(rest) => Some([c] + rest)
  }

  lemma Bytes2(n: int)
    requires 0x80 <= n < 0x800
    ensures 0xC2 <= 0xC0 + n / 64 <= 0xDF && 0 <= n % 64 < 64
    ensures (n / 64) * 64 + n % 64 == n
  {
  }

  lemma Bytes3(n: int)
    requires 0x800 <= n < 0x1_0000
    ensures 0xE0 <= 0xE0 + n / 4096 <= 0xEF && 0 <= (n / 64) % 64 < 64 && 0 <= n % 64 < 64
    ensures (n / 4096) * 4096 + ((n / 64) % 64) * 64 + n % 64 == n
  {
  }

  lemma Bytes4(n: int)
    requires 0x1_0000 <= n <= 0x10FFFF
    ensures 0xF0 <= 0xF0 + n / 262144 <= 0xF4
    ensures 0 <= (n / 4096) % 64 < 64 && 0 <= (n / 64) % 64 < 64 && 0 <= n % 64 < 64
    ensures (n / 262144) * 262144 + ((n / 4096) % 64) * 4096 + ((n / 64) % 64) * 64 + n % 64 == n
  {
  }

  lemma DecodeFirstOfEncodeChar(c: char, rest: seq<byte>)
    ensures DecodeFirst(EncodeChar(c) + rest) == Some((c, Width(c)))
  {
    var n := c as int;
    var bs := EncodeChar(c) + rest;
    if n < 0x80 {
    } else if n < 0x800 {
      Bytes2(n);
      assert bs[0] == 0xC0 + n / 64 && bs[1] == 0x80 + n % 64;
    } else if n < 0x1_0000 {
      Bytes3(n);
      assert bs[0] == 0xE0 + n / 4096 && bs[1] == 0x80 + (n / 64) % 64 && bs[2] == 0x80 + n % 64;
    } else {
      Bytes4(n);
      assert bs[0] == 0xF0 + n / 262144 && bs[1] == 0x80 + (n / 4096) % 64;
      assert bs[2] == 0x80 + (n / 64) % 64 && bs[3] == 0x80 + n % 64;
    }
  }

  /** Decoding what was encoded gives the text back. */
  lemma {:induction false} DecodeEncode(s: string)
    ensures Decode(Encode(s)) == Some(s)
  {
    if s != [] {
      var head := EncodeChar(s[0]);
      var tail := Encode(s[1..]);
      DecodeFirstOfEncodeChar(s[0], tail);
      assert (head + tail)[|head|..] == tail;
      DecodeEncode(s[1..]);
      assert [s[0]] + s[1..] == s;
    }
  }

  lemma Digits2(a: int, b: int)
    requires 0 <= b < 64
    ensures (a * 64 + b) / 64 == a && (a * 64 + b) % 64 == b
  {
  }

  lemma Digits3(a: int, b: int, c: int)
    requires 0 <= b < 64 && 0 <= c < 64
    ensures var n := a * 4096 + b * 64 + c; n / 4096 == a && (n / 64) % 64 == b && n % 64 == c
  {
    var n := a * 4096 + b * 64 + c;
    assert n == (a * 64 + b) * 64 + c;
    Digits2(a * 64 + b, c);
    Digits2(a, b);
    assert n / 4096 == (n / 64) / 64;
  }

  lemma Digits4(a: int, b: int, c: int, d: int)
    requires 0 <= b < 64 && 0 <= c < 64 && 0 <= d < 64
    ensures var n := a * 262144 + b * 4096 + c * 64 + d;
      n / 262144 == a && (n / 4096) % 64 == b && (n / 64) % 64 == c && n % 64 == d
  {
    var n := a * 262144 + b * 4096 + c * 64 + d;
    assert n == (a * 4096 + b * 64 + c) * 64 + d;
    Digits2(a * 4096 + b * 64 + c, d);
    Digits3(a, b, c);
    assert n / 4096 == (n / 64) / 64;
    assert n / 262144 == (n / 64) / 4096;
  }

  lemma EncodeCharOfDecodeFirst(bs: seq<byte>)
    requires bs != [] && DecodeFirst(bs).Some?
    ensures EncodeChar(DecodeFirst(bs).value.0) == bs[..DecodeFirst(bs).value.1]
  {
    var b0 := bs[0] as int;
    var c := DecodeFirst(bs).value.0;
    var n := c as int;
    if b0 < 0x80 {
    } else if b0 <= 0xDF {
      Digits2(b0 - 0xC0, bs[1] as int - 0x80);
    } else if b0 <= 0xEF {
      Digits3(b0 - 0xE0, bs[1] as int - 0x80, bs[2] as int - 0x80);
    } else {
      Digits4(b0 - 0xF0, bs[1] as int - 0x80, bs[2] as int - 0x80, bs[3] as int - 0x80);
    }
  }

  /** Whatever the decoder accepts, re-encoding reproduces byte for byte: the
      decoder accepts exactly the image of the encoder. */
  lemma {:induction false} EncodeDecode(bs: seq<byte>)
    requires Decode(bs).Some?
    ensures Encode(Decode(bs).value) == bs
  {
    if bs != [] {
      var (c, k) := DecodeFirst(bs).value;
      EncodeCharOfDecodeFirst(bs);
      EncodeDecode(bs[k..]);
      var s := Decode(bs).value;
      assert s == [c] + Decode(bs[k..]).value;
      assert s[0] == c && s[1..] == Decode(bs[k..]).value;
      assert bs == bs[..k] + bs[k..];
    }
  }
}

=== FILE: vin.dfy ===
/** `CarfaxAgent._extract_vin_from_query`: the first whitespace-separated word
    of the query that is 17 alphanumeric characters, upper-cased. Python's
    Unicode-aware `isalnum` and `upper` are taken on their ASCII range. */
module Vin {
  import opened Text

  /** The number of characters in a vehicle identification number. */
  const VinLength: nat := 17

  predicate IsAlnum(c: char) { 'a' <= c <= 'z' || 'A' <= c <= 'Z' || '0' <= c <= '9' }
  predicate IsUpperAlnum(c: char) { 'A' <= c <= 'Z' || '0' <= c <= '9' }

  /** `str.upper` on one character. */
  function UpperChar(c: char): (u: char)
    ensures IsAlnum(c) ==> IsUpperAlnum(u)
    ensures IsUpperAlnum(c) ==> u == c
  {
    if 'a' <= c <= 'z' then (c as int - 'a' as int + 'A' as int) as char else c
  }

  /** `str.upper`. */
  function Upper(s: string): (u: string)
    ensures |u| == |s|
    ensures forall i :: 0 <= i < |s| ==> u[i] == UpperChar(s[i])
  {
    if s == [] then [] else [UpperChar(s[0])] + Upper(s[1..])
  }

  /** The test the loop applies to each word: `len(word) == 17 and word.isalnum()`. */
  predicate IsCandidate(w: string) {
    |w| == VinLength && forall i :: 0 <= i < |w| ==> IsAlnum(w[i])
  }

  /** No word of `words` passes the test. */
  predicate NoCandidate(words: seq<string>) {
    forall i :: 0 <= i < |words| ==> !IsCandidate(words[i])
  }

  /** What a returned VIN looks like: 17 upper-case letters and digits. */
  predicate IsVin(v: string) {
    |v| == VinLength && forall i :: 0 <= i < |v| ==> IsUpperAlnum(v[i])
  }

  /** The loop over the words: the upper-cased first candidate, or `""`. */
  function FirstVin(words: seq<string>): (vin: string)
    ensures FirstVinSpec(words, vin)
    ensures vin != "" ==> IsVin(vin)
  {
    if words == [] then ""
    else if IsCandidate(words[0]) then Upper(words[0])
    else
      var vin := FirstVin(words[1..]);
      FirstVinStep(words, vin);
      vin
  }

  /** What `FirstVin` promises of `vin` for the word list `words`: `""` exactly
      when no word is a candidate, and otherwise the upper-cased first
      candidate, with no candidate before it. */
  ghost predicate FirstVinSpec(words: seq<string>, vin: string) {
    && (vin == "" <==> NoCandidate(words))
    && (vin != "" ==> exists i :: 0 <= i < |words| && IsCandidate(words[i]) && vin == Upper(words[i])
                              && forall j :: 0 <= j < i ==> !IsCandidate(words[j]))
  }

  /** Skipping a non-candidate first word keeps the first-candidate property. */
  lemma FirstVinStep(words: seq<string>, vin: string)
    requires words != [] && !IsCandidate(words[0])
    requires FirstVinSpec(words[1..], vin)
    ensures FirstVinSpec(words, vin)
  {
    if vin != "" {
      var i :| 0 <= i < |words[1..]| && IsCandidate(words[1..][i]) && vin == Upper(words[1..][i])
               && forall j :: 0 <= j < i ==> !IsCandidate(words[1..][j]);
      assert words[i + 1] == words[1..][i];
      forall j | 0 < j < i + 1 ensures !IsCandidate(words[j]) {
        assert words[j] == words[1..][j - 1];
      }
    } else {
      forall i | 0 < i < |words| ensures !IsCandidate(words[i]) {
        assert words[i] == words[1..][i - 1];
      }
    }
  }

  /** `_extract_vin_from_query`. */
  function ExtractVin(query: string): (vin: string)
    ensures vin == "" || IsVin(vin)
    ensures vin == "" <==> NoCandidate(Words(query))
  {
    FirstVin(Words(query))
  }

  lemma UpperOfVin(v: string)
    requires IsVin(v)
    ensures Upper(v) == v
  {
  }

  /** A query that is exactly a VIN yields that VIN, so extraction is
      idempotent. */
  lemma ExtractVinIdempotent(query: string)
    ensures ExtractVin(ExtractVin(query)) == ExtractVin(query)
  {
    var v := ExtractVin(query);
    if v != "" {
      assert IsWord(v);
      WordsJoinSpaces([v]);
      assert Words(v) == [v];
      assert IsCandidate(v);
      UpperOfVin(v);
    } else {
      assert Words(v) == [];
    }
  }

  /** The first candidate of a concatenation is the first candidate of the
      front part, if it has one, and otherwise that of the back part. */
  lemma {:induction false} FirstVinAppend(x: seq<string>, y: seq<string>)
    ensures FirstVin(x + y) == if FirstVin(x) != "" then FirstVin(x) else FirstVin(y)
  {
    if x == [] {
      assert x + y == y;
    } else {
      assert (x + y)[0] == x[0] && (x + y)[1..] == x[1..] + y;
      if !IsCandidate(x[0]) {
        FirstVinAppend(x[1..], y);
      }
    }
  }

  /** Around any whitespace character of the query, the VIN comes from the
      text before it when that text holds one, and otherwise from the text
      after it. */
  lemma ExtractVinAtSpace(a: string, c: char, b: string)
    requires IsSpace(c)
    ensures ExtractVin(a + [c] + b) == if ExtractVin(a) != "" then ExtractVin(a) else ExtractVin(b)
  {
    WordsAtSpace(a, c, b);
    FirstVinAppend(Words(a), Words(b));
  }

  /** A query whose words are joined by single spaces yields the first
      candidate among them. */
  lemma ExtractFromWords(ws: seq<string>)
    requires forall i :: 0 <= i < |ws| ==> IsWord(ws[i])
    ensures ExtractVin(JoinSpaces(ws)) == FirstVin(ws)
  {
    WordsJoinSpaces(ws);
  }
}

=== FILE: wrappers.dfy ===
/** Optional values and error-carrying results shared by every module of the model. */
module Wrappers {

  /** A value that may be absent; Python's `None` becomes `None`. */
  datatype Option<+T> = None | Some(value: T)

  /** The outcome of an operation that may raise: `Err` stands for the exception. */
  datatype Result<+T, +E> = Ok(value: T) | Err(error: E)
}
